=== FILE: README.md ===
# A model of the Markdown-to-HTML post converter

The converter `scripts/md_to_html.py` turns one Markdown blog post into an HTML page:

- It reads an optional front-matter block, delimited by `---`, made of `key: value` lines.
- It renders the body with the Markdown library.
- It picks a title: the `title` metadata, else the text after the first `# ` in the body, else `Blog Post`.
- It picks a date: the `date` metadata, else the file's modification time.
- It fills `{{title}}`, `{{date}}` and `{{content}}` in a template with three `str.replace` passes, in that order.

This project models that text pipeline in Dafny and proves what it does.

The modules are:

- `Options`: the optional value.
- `Text`: Python's `in`, `str.split(sep, maxsplit)` and `str.strip` over `seq<char>`, plus `Join` as the inverse of split. `Text.Find` locates the leftmost occurrence, which both `split` and the heading search depend on.
- `Replace`: `str.replace` with no count. It scans left to right, matches do not overlap, and inserted text is never rescanned.
- `FrontMatter`: `read_metadata`, with the `Document` it returns.
- `Page`: title and date selection, the three substitution passes, and `ConvertPage`, the text part of `convert_md_to_html`.

The Markdown renderer and the file's modification date enter the model as parameters: `render` and `modified`.

Several behaviours of the code are made explicit by the lemmas:

- The block ends at the first `---` after the opening one, wherever that is. A block that holds no `---`, even with `--` appended (as when the closing marker starts its own line), is safe. A block ending in one or two dashes closes that many dashes early, and those dashes start the body.
- Later duplicate keys overwrite earlier ones.
- A line without `:` is ignored.
- Only the first `:` separates key and value.
- With no closing marker, the whole text, unstripped, is the body.
- The heading search matches `# ` anywhere, so `## Hello` gives `Hello`, and so does a `# ` in the middle of a line.
- A `{{date}}` or `{{content}}` inside the title is rewritten by the later passes. Nothing inside the rendered content is.

## Model

| member | source | states |
|---|---|---|
| Text.Strip | scripts/md_to_html.py:14 | the result is a slice of the input with only whitespace cut from each end, and neither of its ends is whitespace |
| Text.StripUnique | scripts/md_to_html.py:17 | stripping any whitespace around a trimmed text yields exactly that text (reference characterisation of `strip`) |
| Text.StripIdempotent | scripts/md_to_html.py:14 | stripping twice is stripping once |
| Text.Find | scripts/md_to_html.py:39 | the answer is the leftmost occurrence, and there is none exactly when the pattern does not occur; the heading search takes it, and so does every cut of `split` at line 12 |
| Text.Split | scripts/md_to_html.py:12 | the pieces join back to the input, there are at most maxsplit+1 of them, every cut is at the leftmost remaining separator, and the last piece holds no separator unless the limit was reached |
| Text.SplitPiecesFree | scripts/md_to_html.py:14 | no line produced by an unlimited split contains the separator |
| Text.SplitJoin | scripts/md_to_html.py:14 | an unlimited split inverts join when no separator starts inside a piece, not even one running on into the separator that follows it (`["a-", "b"]` joined at `--` does not split back) |
| Replace.ReplaceAll | scripts/md_to_html.py:48-50 | the character scan of `str.replace`: at each position it either matches the placeholder, emits the value and resumes after the match, or copies one character; a value as long as the placeholder keeps the length (what the scan replaces is stated by the lemmas below) |
| Replace.ReplaceIsJoinOfSplit | scripts/md_to_html.py:48-50 | replacing every occurrence equals cutting the text at every occurrence and joining the pieces with the value, Python's `s.replace(a, b) == b.join(s.split(a))` |
| Replace.ReplaceWithoutOccurrence | scripts/md_to_html.py:48-50 | a text in which the placeholder does not occur comes back unchanged |
| Replace.ReplaceLeftmost | scripts/md_to_html.py:48-50 | replacing keeps the text before the leftmost occurrence, emits the replacement, and continues after the occurrence |
| Replace.ReplaceAtFront | scripts/md_to_html.py:48-50 | the inserted replacement is not scanned again, even when it contains the pattern |
| Replace.ReplaceBySelf | scripts/md_to_html.py:48-50 | replacing a pattern by itself changes nothing |
| Replace.ReplaceConcat | scripts/md_to_html.py:48-50 | replacement distributes over concatenation when no occurrence straddles the seam |
| FrontMatter.SplitAtColon | scripts/md_to_html.py:16 | a line holding ':' splits into exactly two parts, at its first ':' |
| FrontMatter.LineEntry | scripts/md_to_html.py:15-17 | a line yields a pair exactly when it holds ':'; the pair is the stripped text before the first ':' and the stripped text after it |
| FrontMatter.LineRoundTrip | scripts/md_to_html.py:15-17 | a line written as key, ':', spaces, value reads back as that pair |
| FrontMatter.Store | scripts/md_to_html.py:14-17 | the stored keys are exactly those some line defines, the last definition of a key decides its value, and other keys are untouched |
| FrontMatter.ParseBlockReadsLines | scripts/md_to_html.py:14-17 | reading a block stores exactly the keys of its stripped lines that hold ':', and the last such line for a key decides its value |
| FrontMatter.EmptyBlock | scripts/md_to_html.py:14-17 | a block of whitespace only yields no metadata |
| FrontMatter.StoreValuesFromEntries | scripts/md_to_html.py:14-17 | every stored value comes from some line |
| FrontMatter.ReadMetadata | scripts/md_to_html.py:8-23 | without a leading marker, or without a second one, there is no metadata and the body is the whole text; otherwise the metadata is read from the text between the first two markers and the body is the stripped rest |
| FrontMatter.SplitAfterMarker | scripts/md_to_html.py:11-13 | splitting at the marker at most twice gives three parts exactly when a second marker exists, and they are the text between the markers and the rest |
| FrontMatter.MetadataIsSingleLine | scripts/md_to_html.py:14-17 | no metadata key or value holds a line feed |
| FrontMatter.BlockRoundTrip | scripts/md_to_html.py:14-17 | a block written with one well-formed pair per line and distinct keys reads back as exactly those pairs |
| FrontMatter.ClosingMarker | scripts/md_to_html.py:11-18 | a block that cannot contain a marker is read as the metadata, and the text after the closing marker, stripped, as the body |
| FrontMatter.DocumentRoundTrip | scripts/md_to_html.py:8-23 | a document written as marker, pair lines, marker, body reads back as exactly those pairs and that body, whenever no key or value holds `---` (dashes otherwise allowed, as in `2024-01-15`) and the keys are distinct |
| Page.Lookup | scripts/md_to_html.py:37-38 | a key counts as given exactly when it is present with a non-empty value |
| Page.HeadingText | scripts/md_to_html.py:39-40 | there is a heading exactly when the body holds `# `, and its text is the rest of the line after the leftmost one |
| Page.SelectTitle | scripts/md_to_html.py:37-40 | the metadata title if given, else the rest of the line after the leftmost `# `, else `Blog Post` |
| Page.SelectDate | scripts/md_to_html.py:43-45 | the metadata date if given, else the modification date |
| Page.Substitute | scripts/md_to_html.py:48-50 | a template without placeholders is returned unchanged |
| Page.ConvertPage | scripts/md_to_html.py:25-50 | a template without placeholders is the page, whatever the document |
| Page.FillsEachPlaceholder | scripts/md_to_html.py:48-50 | a template holding each placeholder once, in page order, gets each one filled with its own value and the rest kept, whenever no other `{{` occurs in the template text, title and date before the content nor in the template text after it; single braces are allowed anywhere |
| Page.PassFillsEvery | scripts/md_to_html.py:48 | one pass fills every copy of its placeholder, not just the first: a template made of the pieces `split` would cut it into, joined by the placeholder, becomes those pieces joined by the value |
| Page.RepeatedTitle | scripts/md_to_html.py:48-50 | a template using `{{title}}` any number of times shows the title at every copy, and the later passes change nothing when the result holds no `{{date}}` or `{{content}}` |
| Page.ContentInsertedVerbatim | scripts/md_to_html.py:48-50 | the rendered content appears as is, whatever it contains, in a template whose other text holds no `{{` |
| Page.TitleRewrittenByLaterPasses | scripts/md_to_html.py:48-50 | a title placeholder becomes the title with its `{{date}}` and then its `{{content}}` placeholders filled by the later passes, the text around it kept, whenever that text holds no `{{`, the text before it does not end in `{`, and no date placeholder straddles the end of the title, nor a content placeholder the end of the title after the date pass, with the text after |
| Page.DateRewrittenByContentPass | scripts/md_to_html.py:48-50 | a date placeholder becomes the date with its `{{content}}` placeholders filled and any `{{title}}` in it kept, the text around it kept, whenever that text holds no `{{`, the text before it does not end in `{`, and no content placeholder straddles the end of the date with the text after |
| Page.TitleNamingDate | scripts/md_to_html.py:48-49 | a title that is itself `{{date}}` shows as the date with its `{{content}}` placeholders filled, for every date, so as the date itself when it holds none |
| Page.HeadingAtAnyLevel | scripts/md_to_html.py:39-40 | the first `# `, at any heading level or inside a line, supplies the rest of its line as the title |
| Page.SecondLevelHeadingExample | scripts/md_to_html.py:39-40 | `## Hello` gives the title `Hello` |
| Page.TitleIsSingleLine | scripts/md_to_html.py:37-40 | the chosen title never holds a line feed |
| Page.PlainDocumentPage | scripts/md_to_html.py:20-22 | a document without front matter or heading is rendered whole under `Blog Post` and the modification date |
| Page.PostDocument | scripts/md_to_html.py:8-23 | a post whose front matter gives a title and a date, neither holding `---`, reads back with that title, that date and the body after the block |
| Page.PostPage | scripts/md_to_html.py:25-50 | such a post in a template holding each placeholder once becomes the template with its title, date and rendered body in place, under the same `{{` condition as `FillsEachPlaceholder` |

## Left out

- Markdown rendering (`markdown.markdown` with its extensions) is the parameter `render`; its output is not modelled.
- The modification-time date (`os.path.getmtime`, `strftime('%B %d, %Y')`) is the string parameter `modified`.
- Reading the Markdown and template files, computing the output file name, writing the page and the confirmation message are I/O. `ConvertPage` takes the two texts as Python's text-mode reading decodes them, with every `\r\n` and lone `\r` already turned into `\n`, and returns the page text. Raw contents with other line endings are not modelled.
- `main` and its argument-count check are command-line handling and are not modelled.
- `Text.Strip` removes exactly six characters: space, tab, line feed, carriage return, vertical tab and form feed. Python's `str.strip()` also removes U+001C to U+001F, U+0085, U+00A0 and the other Unicode whitespace characters; the model keeps them.
- `Replace.ReplaceAll` requires a non-empty pattern, since every call in the converter uses a non-empty placeholder; its own contract is only the length fact, and what the replacement does is stated by the `Replace` lemmas about it.
- Page.FillsEachPlaceholder: a `{{` elsewhere in the template, title or date (another template language's placeholder, say) is outside its statement, because such a pair may combine with the text next to it into a placeholder; `Page.PassFillsEvery` and `Page.RepeatedTitle` state the exact condition for one pass.
- Page.PostPage: inherits the `{{` condition of `Page.FillsEachPlaceholder`.
- Page.TitleRewrittenByLaterPasses: a `{{` in the text around the placeholder, a `{` just before it, or a placeholder straddling the end of the title with the text after is outside its statement, because a pass may then form or consume a placeholder across that seam.
- Page.DateRewrittenByContentPass: the same seams are outside its statement, for the same reason.
- `Text.Split` requires a non-empty separator (Python raises an error for an empty one); the converter only splits at `---`, a line feed and ':'.

=== FILE: front_matter.dfy ===
/**
  `read_metadata`: split an optional `---`-delimited block of `key: value`
  lines off the front of a Markdown document.
 */
module FrontMatter {

  import opened Options
  import opened Text

  /** The front-matter delimiter. */
  const Marker: string := "---"

  /** One `key: value` pair read from a metadata line. */
  datatype Entry = Entry(key: string, value: string)

  /** What `read_metadata` returns: the metadata map and the body text. */
  datatype Document = Document(metadata: map<string, string>, body: string)

  /** Splitting a line at its first ':' (as `line.split(':', 1)` does). */
  lemma SplitAtColon(line: string)
    requires ':' in line
    ensures |Split(line, ":", 1)| == 2
    ensures var i := |Split(line, ":", 1)[0]|;
      && i < |line| && line[i] == ':' && ':' !in line[..i]
      && Split(line, ":", 1)[0] == line[..i]
      && Split(line, ":", 1)[1] == line[i + 1..]
  {
    var parts := Split(line, ":", 1);
    var c :| 0 <= c < |line| && line[c] == ':';
    OccursChar(line, ':', c);
    assert |parts| == 2;
    var i := |parts[0]|;
    assert line == parts[0] + ":" + parts[1];
    assert ":"[..0] == [];
    assert parts[0] + ":"[..0] == parts[0];
    assert line[..i] == parts[0];
    forall k | 0 <= k < i
      ensures line[..i][k] != ':'
    {
      OccursChar(parts[0], ':', k);
    }
  }

  /** One metadata line: a line holding ':' yields the stripped text before
      its first ':' as key and the stripped text after it as value (so any
      later ':' stays in the value); any other line yields nothing. */
  function LineEntry(line: string): (e: Option<Entry>)
    ensures e.Some? <==> ':' in line
    ensures e.Some? ==>
      exists i :: 0 <= i < |line| && line[i] == ':' && ':' !in line[..i]
        && e.value == Entry(Strip(line[..i]), Strip(line[i + 1..]))
  {
    if ':' in line then
      SplitAtColon(line);
      var parts := Split(line, ":", 1);
      Some(Entry(Strip(parts[0]), Strip(parts[1])))
    else None
  }

  /** The entry read from each line, in order. */
  function Entries(lines: seq<string>): (es: seq<Option<Entry>>)
    ensures |es| == |lines|
    ensures forall i :: 0 <= i < |lines| ==> es[i] == LineEntry(lines[i])
  {
    seq(|lines|, i requires 0 <= i < |lines| => LineEntry(lines[i]))
  }

  /** The entry `e` stores a value under `key`. */
  predicate Defines(e: Option<Entry>, key: string) {
    e.Some? && e.value.key == key
  }

  /** Entry `i` stores a key that no later entry stores again. */
  predicate LastDefinition(es: seq<Option<Entry>>, i: int) {
    && 0 <= i < |es|
    && es[i].Some?
    && forall j :: i < j < |es| ==> !Defines(es[j], es[i].value.key)
  }

  /** One iteration of the loop: a line holding ':' stores its pair. */
  function Apply(acc: map<string, string>, e: Option<Entry>): map<string, string> {
    match e
    case None => acc
    case Some(entry) => acc[entry.key := entry.value]
  }

  /** The loop over metadata lines: each line holding ':' stores its pair in
      the map, overwriting an earlier value for the same key. */
  function Store(acc: map<string, string>, es: seq<Option<Entry>>): (m: map<string, string>)
    decreases |es|
    // the keys are those already present and those some entry stores
    ensures forall k :: k in m <==> k in acc || exists i :: 0 <= i < |es| && Defines(es[i], k)
    // the last entry storing a key decides its value
    ensures forall i :: LastDefinition(es, i) ==> es[i].value.key in m && m[es[i].value.key] == es[i].value.value
    // keys that no entry stores keep their value
    ensures forall k :: k in acc && (forall i :: 0 <= i < |es| ==> !Defines(es[i], k)) ==> k in m && m[k] == acc[k]
  {
    if |es| == 0 then acc
    else
      var m := Store(Apply(acc, es[0]), es[1..]);
      StoreStep(acc, es, m);
      m
  }

  /** The step of `Store`'s proof: what the rest of the loop does, starting
      from the map after the first entry, is what the whole loop does. */
  lemma StoreStep(acc: map<string, string>, es: seq<Option<Entry>>, m: map<string, string>)
    requires |es| > 0
    requires var acc', rest := Apply(acc, es[0]), es[1..];
      && (forall k :: k in m <==> k in acc' || exists i :: 0 <= i < |rest| && Defines(rest[i], k))
      && (forall i :: LastDefinition(rest, i) ==> rest[i].value.key in m && m[rest[i].value.key] == rest[i].value.value)
      && (forall k :: k in acc' && (forall i :: 0 <= i < |rest| ==> !Defines(rest[i], k)) ==> k in m && m[k] == acc'[k])
    ensures forall k :: k in m <==> k in acc || exists i :: 0 <= i < |es| && Defines(es[i], k)
    ensures forall i :: LastDefinition(es, i) ==> es[i].value.key in m && m[es[i].value.key] == es[i].value.value
    ensures forall k :: k in acc && (forall i :: 0 <= i < |es| ==> !Defines(es[i], k)) ==> k in m && m[k] == acc[k]
  {
    assert forall i :: 1 <= i < |es| ==> es[1..][i - 1] == es[i];
    assert forall i :: 1 <= i < |es| && LastDefinition(es, i) ==> LastDefinition(es[1..], i - 1);
  }

  /** Every value `Store` ends with was already present or comes from an entry. */
  lemma {:induction false} StoreValuesFromEntries(acc: map<string, string>, es: seq<Option<Entry>>)
    decreases |es|
    ensures forall k :: k in Store(acc, es) ==>
      (k in acc && Store(acc, es)[k] == acc[k]) || exists i :: 0 <= i < |es| && es[i] == Some(Entry(k, Store(acc, es)[k]))
  {
    if |es| > 0 {
      var acc' := Apply(acc, es[0]);
      StoreValuesFromEntries(acc', es[1..]);
      var m := Store(acc, es);
      assert m == Store(acc', es[1..]);
      forall k | k in m
        ensures (k in acc && m[k] == acc[k]) || exists i :: 0 <= i < |es| && es[i] == Some(Entry(k, m[k]))
      {
        if !(k in acc' && m[k] == acc'[k]) {
          var i :| 0 <= i < |es[1..]| && es[1..][i] == Some(Entry(k, m[k]));
          assert es[i + 1] == Some(Entry(k, m[k]));
        } else if es[0].Some? && es[0].value.key == k {
          assert es[0] == Some(Entry(k, m[k]));
        }
      }
    }
  }

  /** The metadata block: strip it, cut it into lines, and read the lines in order. */
  function ParseBlock(block: string): map<string, string> {
    Store(map[], Entries(Lines(block)))
  }

  /** What reading a block gives, in terms of its lines: the keys are exactly
      those of the lines holding ':', and the last line storing a key decides
      its value. */
  lemma ParseBlockReadsLines(block: string)
    ensures forall k :: k in ParseBlock(block) <==>
      exists i :: 0 <= i < |Lines(block)| && Defines(LineEntry(Lines(block)[i]), k)
    ensures forall i :: LastDefinition(Entries(Lines(block)), i) ==>
      var e := LineEntry(Lines(block)[i]).value; e.key in ParseBlock(block) && ParseBlock(block)[e.key] == e.value
  {
    StoreKeysOfLines(Lines(block));
    StoreLastOfLines(Lines(block));
  }

  /** The keys `Store` ends with, in terms of the lines read. */
  lemma StoreKeysOfLines(lines: seq<string>)
    ensures var m := Store(map[], Entries(lines));
      forall k :: k in m <==> exists i :: 0 <= i < |lines| && Defines(LineEntry(lines[i]), k)
  {
    var es := Entries(lines);
    var m := Store(map[], es);
    forall k
      ensures k in m <==> exists i :: 0 <= i < |lines| && Defines(LineEntry(lines[i]), k)
    {
      if k in m {
        var i :| 0 <= i < |es| && Defines(es[i], k);
        assert Defines(LineEntry(lines[i]), k);
      }
    }
  }

  /** The values `Store` ends with, in terms of the lines read. */
  lemma StoreLastOfLines(lines: seq<string>)
    ensures var m := Store(map[], Entries(lines));
      forall i :: LastDefinition(Entries(lines), i) ==>
            var e := LineEntry(lines[i]).value; e.key in m && m[e.key] == e.value
  {
  }

  /** The lines of the stripped metadata block, as `block.strip().split('\n')`. */
  function Lines(block: string): seq<string> {
    Split(Strip(block), "\n", -1)
  }

  /** `read_metadata`. */
  function ReadMetadata(text: string): (d: Document)
    // no leading marker: no metadata, body is the whole input, untrimmed
    ensures !StartsWith(text, Marker) ==> d == Document(map[], text)
    // leading marker but no second one: the same
    ensures StartsWith(text, Marker) && (forall j :: |Marker| <= j ==> !OccursAt(text, Marker, j)) ==>
      d == Document(map[], text)
    // otherwise the block runs to the next marker, wherever it is, and the
    // body is what follows it with its surrounding whitespace stripped
    ensures forall j :: StartsWith(text, Marker) && FirstOccurrenceFrom(text, Marker, |Marker|, j) ==>
      && d.metadata == ParseBlock(text[|Marker|..j])
      && d.body == Strip(text[j + |Marker|..])
      && Trimmed(d.body)
  {
    if StartsWith(text, Marker) then
      var parts := Split(text, Marker, 2);
      SplitAfterMarker(text);
      if |parts| >= 3 then Document(ParseBlock(parts[1]), Strip(parts[2]))
      else Document(map[], text)
    else Document(map[], text)
  }

  /** `text.split('---', 2)` on a text that starts with `---` and has a
      second marker: an empty piece, the block, and the rest. */
  lemma SplitClosed(text: string, i: nat)
    requires StartsWith(text, Marker) && Find(text[3..], Marker) == Some(i)
    ensures Split(text, Marker, 2) == [text[..0], text[3..i + 3], text[i + 6..]]
  {
    var rest := text[3..];
    FindAtFront(text, Marker);
    SplitCuts(text, Marker, 2, 0);
    SplitCuts(rest, Marker, 1, i);
    SplitStops(rest[i + 3..], Marker, 0);
    SliceOfSuffix(text, 3, i);
    SliceOfSuffix(text, 3, i + 3);
  }

  /** `text.split('---', 2)` on a text that starts with `---` and has no
      second marker: an empty piece and the rest. */
  lemma SplitUnclosed(text: string)
    requires StartsWith(text, Marker) && Find(text[3..], Marker).None?
    ensures Split(text, Marker, 2) == [text[..0], text[3..]]
  {
    FindAtFront(text, Marker);
    SplitCuts(text, Marker, 2, 0);
    SplitStops(text[3..], Marker, 1);
  }

  /** How `text.split('---', 2)` comes apart when `text` starts with `---`:
      an empty first part, then the text up to the next marker, then the rest. */
  lemma SplitAfterMarker(text: string)
    requires StartsWith(text, Marker)
    ensures var parts := Split(text, Marker, 2);
      && (|parts| >= 3 <==> exists j :: FirstOccurrenceFrom(text, Marker, |Marker|, j))
      && forall j :: FirstOccurrenceFrom(text, Marker, |Marker|, j) ==>
           |parts| == 3 && parts[1] == text[|Marker|..j] && parts[2] == text[j + |Marker|..]
  {
    FindInSuffix(text, Marker, 3);
    match Find(text[3..], Marker)
    case None =>
      SplitUnclosed(text);
    case Some(i) =>
      SplitClosed(text, i);
  }

  /** A text free of line feeds stays so under stripping. */
  lemma StripKeepsSingleLine(s: string)
    requires '\n' !in s
    ensures '\n' !in Strip(s)
  {
  }

  /** The lines of a block hold no line feed. */
  lemma LinesAreSingle(block: string)
    ensures forall i :: 0 <= i < |Lines(block)| ==> '\n' !in Lines(block)[i]
  {
    var lines := Lines(block);
    SplitPiecesFree(Strip(block), "\n");
    forall i | 0 <= i < |lines|
      ensures '\n' !in lines[i]
    {
      OccursCharIn(lines[i], '\n');
    }
  }

  /** Metadata keys and values never span lines. */
  lemma {:induction false} MetadataIsSingleLine(block: string)
    ensures forall k :: k in ParseBlock(block) ==> '\n' !in k && '\n' !in ParseBlock(block)[k]
  {
    var lines := Lines(block);
    var es := Entries(lines);
    var m := ParseBlock(block);
    LinesAreSingle(block);
    StoreValuesFromEntries(map[], es);
    forall k | k in m
      ensures '\n' !in k && '\n' !in m[k]
    {
      var i :| 0 <= i < |es| && es[i] == Some(Entry(k, m[k]));
      var line := lines[i];
      var c :| 0 <= c < |line| && line[c] == ':' && ':' !in line[..c]
        && es[i].value == Entry(Strip(line[..c]), Strip(line[c + 1..]));
      assert '\n' !in line[..c];
      assert '\n' !in line[c + 1..];
      StripKeepsSingleLine(line[..c]);
      StripKeepsSingleLine(line[c + 1..]);
    }
  }

  /** The metadata `read_metadata` returns is empty or read from some block. */
  lemma MetadataFromBlock(text: string)
    ensures ReadMetadata(text).metadata == map[]
      || exists block :: ReadMetadata(text).metadata == ParseBlock(block)
  {
    if StartsWith(text, Marker) && |Split(text, Marker, 2)| >= 3 {
      assert ReadMetadata(text).metadata == ParseBlock(Split(text, Marker, 2)[1]);
    }
  }

  // ---------------------------------------------------------------------
  // Writing front matter and reading it back

  /** A `key: value` pair that survives being written as a line and read
      back: both parts non-empty, trimmed and on one line, and no ':' in the
      key (a ':' in the value is fine). */
  predicate WellFormed(e: Entry) {
    && e.key != [] && e.value != []
    && Trimmed(e.key) && Trimmed(e.value)
    && ':' !in e.key && '\n' !in e.key && '\n' !in e.value
  }

  /** The line `key: value`. */
  function FormatLine(e: Entry): string {
    e.key + ": " + e.value
  }

  /** One written line per pair, in order. */
  function FormatLines(es: seq<Entry>): (lines: seq<string>)
    ensures |lines| == |es|
    ensures forall i :: 0 <= i < |es| ==> lines[i] == FormatLine(es[i])
  {
    seq(|es|, i requires 0 <= i < |es| => FormatLine(es[i]))
  }

  /** In `key + ":" + rest` with no ':' in the key, the first ':' ends the key. */
  lemma FirstColonEndsKey(key: string, rest: string, i: int)
    requires ':' !in key && 0 <= i < |key + ":" + rest|
    requires (key + ":" + rest)[i] == ':' && ':' !in (key + ":" + rest)[..i]
    ensures i == |key|
  {
    var line := key + ":" + rest;
    if i > |key| {
      IndexInPrefix(line, i, |key|);
      assert false;
    }
  }

  /** Reading a line written as `key: value` gives back the pair: the key ends
      at the first ':', and the spaces around both parts are stripped. */
  lemma LineRoundTrip(key: string, gap: string, value: string)
    requires ':' !in key && Trimmed(key) && AllSpace(gap) && Trimmed(value)
    ensures LineEntry(key + ":" + gap + value) == Some(Entry(key, value))
  {
    var line := key + ":" + gap + value;
    assert line == key + ":" + (gap + value);
    assert line[|key|] == ':';
    SplitAtColon(line);
    var parts := Split(line, ":", 1);
    var i := |parts[0]|;
    FirstColonEndsKey(key, gap + value, i);
    assert parts[0] == [] + key + [] by {
      assert line[..|key|] == key;
    }
    assert parts[1] == gap + value + [] by {
      assert line[|key| + 1..] == gap + value;
    }
    assert AllSpace([]);
    StripUnique([], key, []);
    StripUnique(gap, value, []);
  }

  /** The block written for some pairs strips and splits into their lines. */
  lemma BlockLines(entries: seq<Entry>)
    requires |entries| > 0
    requires forall i :: 0 <= i < |entries| ==> WellFormed(entries[i])
    ensures Lines("\n" + Join(FormatLines(entries), "\n") + "\n") == FormatLines(entries)
  {
    var lines := FormatLines(entries);
    var joined := Join(lines, "\n");
    forall k | 0 <= k < |lines|
      ensures lines[k] != [] && !Occurs(lines[k], "\n") && !Occurs(lines[k] + "\n"[..0], "\n")
    {
      FormatLineShape(entries[k]);
      OccursCharIn(lines[k], '\n');
      assert lines[k] + "\n"[..0] == lines[k];
    }
    JoinEnds(lines, "\n");
    FormatLineShape(entries[0]);
    FormatLineShape(entries[|entries| - 1]);
    assert AllSpace("\n");
    StripUnique("\n", joined, "\n");
    SplitJoin(lines, "\n");
  }

  /** A written line is one non-empty line that begins with its key and ends
      with its value. */
  lemma FormatLineShape(e: Entry)
    requires WellFormed(e)
    ensures var line := FormatLine(e);
      && line != [] && '\n' !in line
      && line[0] == e.key[0] && line[|line| - 1] == e.value[|e.value| - 1]
  {
  }

  /** Each written line reads back as its pair. */
  lemma EntriesRoundTrip(entries: seq<Entry>)
    requires forall i :: 0 <= i < |entries| ==> WellFormed(entries[i])
    ensures forall i :: 0 <= i < |entries| ==> Entries(FormatLines(entries))[i] == Some(entries[i])
  {
    var lines := FormatLines(entries);
    forall i | 0 <= i < |entries|
      ensures LineEntry(lines[i]) == Some(entries[i])
    {
      var e := entries[i];
      assert lines[i] == e.key + ":" + " " + e.value;
      assert AllSpace(" ");
      LineRoundTrip(e.key, " ", e.value);
    }
  }

  /** Storing one entry per distinct key yields exactly those pairs. */
  lemma StoreDistinct(entries: seq<Entry>, es: seq<Option<Entry>>)
    requires |es| == |entries| && forall i :: 0 <= i < |es| ==> es[i] == Some(entries[i])
    requires forall i, j :: 0 <= i < j < |entries| ==> entries[i].key != entries[j].key
    ensures var m := Store(map[], es);
      && (forall k :: k in m <==> exists i :: 0 <= i < |entries| && entries[i].key == k)
      && (forall i :: 0 <= i < |entries| ==> entries[i].key in m && m[entries[i].key] == entries[i].value)
  {
    forall i | 0 <= i < |entries|
      ensures LastDefinition(es, i) && Defines(es[i], entries[i].key)
    {
    }
  }

  /** Front matter written one well-formed pair per line, distinct keys, is
      read back as exactly those pairs. */
  lemma BlockRoundTrip(entries: seq<Entry>)
    requires forall i :: 0 <= i < |entries| ==> WellFormed(entries[i])
    requires forall i, j :: 0 <= i < j < |entries| ==> entries[i].key != entries[j].key
    ensures var m := ParseBlock("\n" + Join(FormatLines(entries), "\n") + "\n");
      && (forall k :: k in m <==> exists i :: 0 <= i < |entries| && entries[i].key == k)
      && (forall i :: 0 <= i < |entries| ==> entries[i].key in m && m[entries[i].key] == entries[i].value)
  {
    if |entries| == 0 {
      EmptyBlock("\n" + Join(FormatLines(entries), "\n") + "\n");
    } else {
      var block := "\n" + Join(FormatLines(entries), "\n") + "\n";
      BlockLines(entries);
      ParseBlockOfLines(block, FormatLines(entries));
      StoreFormatted(entries);
    }
  }

  /** A block of blank lines holds no metadata. */
  lemma EmptyBlock(block: string)
    requires AllSpace(block)
    ensures ParseBlock(block) == map[]
  {
    assert block + [] + [] == block;
    StripUnique(block, [], []);
    SplitStops([], "\n", -1);
    var es := Entries(Lines(block));
    assert es == [LineEntry([])];
    assert forall k :: k !in Store(map[], es);
  }

  /** Reading a block depends on the block only through its lines. */
  lemma ParseBlockOfLines(block: string, lines: seq<string>)
    requires Lines(block) == lines
    ensures ParseBlock(block) == Store(map[], Entries(lines))
  {
  }

  /** Storing the entries read from written lines yields exactly the pairs. */
  lemma StoreFormatted(entries: seq<Entry>)
    requires forall i :: 0 <= i < |entries| ==> WellFormed(entries[i])
    requires forall i, j :: 0 <= i < j < |entries| ==> entries[i].key != entries[j].key
    ensures var m := Store(map[], Entries(FormatLines(entries)));
      && (forall k :: k in m <==> exists i :: 0 <= i < |entries| && entries[i].key == k)
      && (forall i :: 0 <= i < |entries| ==> entries[i].key in m && m[entries[i].key] == entries[i].value)
  {
    EntriesRoundTrip(entries);
    StoreDistinct(entries, Entries(FormatLines(entries)));
  }

  /** A written line holds a marker only if its key or its value does: the
      `: ` between them holds no dash. */
  lemma NoMarkerInLine(e: Entry)
    requires !Occurs(e.key, Marker) && !Occurs(e.value, Marker)
    ensures !Occurs(FormatLine(e), Marker)
  {
    assert FormatLine(e) == e.key + [':'] + ([] + [' '] + e.value);
    OccursAround([], ' ', e.value, Marker);
    OccursAround(e.key, ':', [] + [' '] + e.value, Marker);
  }

  /** A block written from pairs without a marker cannot close early: not even
      the first two dashes of the closing marker complete one inside it. */
  lemma NoMarkerInBlock(entries: seq<Entry>)
    requires forall i :: 0 <= i < |entries| ==> !Occurs(entries[i].key, Marker) && !Occurs(entries[i].value, Marker)
    ensures !Occurs("\n" + Join(FormatLines(entries), "\n") + "\n" + "--", Marker)
  {
    var lines := FormatLines(entries);
    forall i | 0 <= i < |lines|
      ensures !Occurs(lines[i], Marker)
    {
      NoMarkerInLine(entries[i]);
    }
    var joined := Join(lines, "\n");
    JoinAvoidsPattern(lines, '\n', Marker);
    assert "\n" + joined == [] + ['\n'] + joined;
    OccursAround([], '\n', joined, Marker);
    assert "\n" + joined + "\n" + "--" == ("\n" + joined) + ['\n'] + "--";
    OccursAround("\n" + joined, '\n', "--", Marker);
  }

  /** The metadata block ends at the first `---` after the opening one, and
      the body is what follows that, stripped. */
  lemma ClosingMarker(block: string, rest: string)
    requires !Occurs(block + "--", Marker)
    ensures ReadMetadata(Marker + block + Marker + rest) == Document(ParseBlock(block), Strip(rest))
  {
    var text := Marker + block + Marker + rest;
    var j := 3 + |block|;
    assert text[..3] == Marker;
    assert text[j..j + 3] == Marker;
    var w := block + "--";
    assert text[3..][..|w|] == w;
    forall k | 3 <= k < j
      ensures !OccursAt(text, Marker, k)
    {
      OccursInSuffix(text, Marker, 3, k - 3);
      OccursInPrefixOf(text[3..], |w|, Marker, k - 3);
    }
    assert FirstOccurrenceFrom(text, Marker, 3, j);
    assert text[3..j] == block;
    assert text[j + 3..] == rest;
  }

  /** The line break after the closing marker is stripped from the body. */
  lemma StripNewline(body: string)
    requires Trimmed(body)
    ensures Strip("\n" + body) == body
  {
    StripUnique("\n", body, []);
    assert "\n" + body + [] == "\n" + body;
  }

  /** A document written with the pairs as front matter, one per line, and
      `body` after the closing marker. */
  function WriteDocument(entries: seq<Entry>, body: string): string {
    Marker + "\n" + Join(FormatLines(entries), "\n") + "\n" + Marker + "\n" + body
  }

  /** Front matter written one well-formed pair per line, with distinct keys
      and no `---` inside a key or a value, followed by a trimmed body, reads
      back as exactly those pairs and that body. */
  lemma DocumentRoundTrip(entries: seq<Entry>, body: string)
    requires forall i :: 0 <= i < |entries| ==> WellFormed(entries[i])
    requires forall i :: 0 <= i < |entries| ==> !Occurs(entries[i].key, Marker) && !Occurs(entries[i].value, Marker)
    requires forall i, j :: 0 <= i < j < |entries| ==> entries[i].key != entries[j].key
    requires Trimmed(body)
    ensures var d := ReadMetadata(WriteDocument(entries, body));
      && d.body == body
      && (forall k :: k in d.metadata <==> exists i :: 0 <= i < |entries| && entries[i].key == k)
      && (forall i :: 0 <= i < |entries| ==> entries[i].key in d.metadata && d.metadata[entries[i].key] == entries[i].value)
  {
    var block := "\n" + Join(FormatLines(entries), "\n") + "\n";
    var rest := "\n" + body;
    assert WriteDocument(entries, body) == Marker + block + Marker + rest;
    NoMarkerInBlock(entries);
    ClosingMarker(block, rest);
    StripNewline(body);
    BlockRoundTrip(entries);
  }

}

=== FILE: options.dfy ===
/** The optional value used for "not found" answers throughout the model. */
module Options {

  datatype Option<+T> = None | Some(value: T)

}

=== FILE: page.dfy ===
/**
  The text-transforming part of `convert_md_to_html`: choosing the title and
  the date, and filling the `{{title}}`, `{{date}}` and `{{content}}`
  placeholders of the template, in that order.
 */
module Page {

  import opened Options
  import opened Text
  import opened Replace
  import opened FrontMatter

  /** The placeholder `{{name}}`. */
  function Token(name: string): string {
    "{{" + name + "}}"
  }

  /** The two characters every placeholder opens with. */
  const Opening: string := "{{"

  /** A placeholder name: non-empty and free of braces. */
  predicate PlainName(name: string) {
    name != [] && '{' !in name && '}' !in name
  }

  const TitleName: string := "title"
  const DateName: string := "date"
  const ContentName: string := "content"

  /** The title used when neither the metadata nor the body supplies one. */
  const DefaultTitle: string := "Blog Post"

  /** The literal part of the heading pattern `# (.*)`. */
  const HeadingMark: string := "# "

  /** `metadata.get(key)` followed by a truthiness test: a missing key and an
      empty value both count as absent. */
  function Lookup(metadata: map<string, string>, key: string): (v: Option<string>)
    ensures v.Some? <==> key in metadata && metadata[key] != []
    ensures v.Some? ==> v.value == metadata[key]
  {
    if key in metadata && metadata[key] != [] then Some(metadata[key]) else None
  }

  /** `t` is the text of `s` from `start` up to, not including, the next line
      feed or the end of `s`; this is what `(.*)` captures. */
  predicate RestOfLine(s: string, start: int, t: string) {
    && 0 <= start
    && start + |t| <= |s|
    && s[start..start + |t|] == t
    && '\n' !in t
    && (start + |t| == |s| || s[start + |t|] == '\n')
  }

  /** The prefix of `s` before its first line feed. */
  function FirstLine(s: string): (r: string)
    ensures RestOfLine(s, 0, r)
  {
    match Find(s, "\n")
    case None =>
      forall k | 0 <= k < |s| ensures s[k] != '\n' {
        OccursChar(s, '\n', k);
      }
      s
    case Some(n) =>
      OccursChar(s, '\n', n);
      forall k | 0 <= k < n ensures s[..n][k] != '\n' {
        OccursChar(s, '\n', k);
      }
      s[..n]
  }

  /** `re.search(r'# (.*)', body)` and its group 1: the rest of the line after
      the leftmost `# ` anywhere in the body (so `## X` gives `X`). */
  function HeadingText(body: string): (t: Option<string>)
    ensures t.None? <==> !Occurs(body, HeadingMark)
    ensures t.Some? ==> exists i :: FirstOccurrenceFrom(body, HeadingMark, 0, i) && RestOfLine(body, i + 2, t.value)
  {
    match Find(body, HeadingMark)
    case None => None
    case Some(i) =>
      var t := FirstLine(body[i + 2..]);
      assert body[i + 2..][..|t|] == body[i + 2..i + 2 + |t|];
      assert RestOfLine(body, i + 2, t);
      Some(t)
  }

  /** The page title: the metadata `title` if non-empty, else the first
      heading text, else the fixed fallback. */
  function SelectTitle(metadata: map<string, string>, body: string): (title: string)
    ensures Lookup(metadata, TitleName).Some? ==> title == metadata[TitleName]
    ensures Lookup(metadata, TitleName).None? && Occurs(body, HeadingMark) ==>
      exists i :: FirstOccurrenceFrom(body, HeadingMark, 0, i) && RestOfLine(body, i + 2, title)
    ensures Lookup(metadata, TitleName).None? && !Occurs(body, HeadingMark) ==> title == DefaultTitle
  {
    match Lookup(metadata, TitleName)
    case Some(t) => t
    case None =>
      match HeadingText(body)
      case Some(h) => h
      case None => DefaultTitle
  }

  /** The page date: the metadata `date` if non-empty, else `modified`, the
      formatted modification time of the Markdown file. */
  function SelectDate(metadata: map<string, string>, modified: string): (date: string)
    ensures Lookup(metadata, DateName).Some? ==> date == metadata[DateName]
    ensures Lookup(metadata, DateName).None? ==> date == modified
  {
    match Lookup(metadata, DateName)
    case Some(d) => d
    case None => modified
  }

  /** The three `template.replace` passes: title first, then date, then the
      rendered content; each pass scans the output of the one before. */
  function Substitute(template: string, title: string, date: string, html: string): (page: string)
    ensures (&& !Occurs(template, Token(TitleName))
             && !Occurs(template, Token(DateName))
             && !Occurs(template, Token(ContentName))) ==> page == template
  {
    var afterTitle := ReplaceAll(template, Token(TitleName), title);
    var afterDate := ReplaceAll(afterTitle, Token(DateName), date);
    ReplaceWithoutOccurrence(template, Token(TitleName), title);
    ReplaceWithoutOccurrence(afterTitle, Token(DateName), date);
    ReplaceWithoutOccurrence(afterDate, Token(ContentName), html);
    ReplaceAll(afterDate, Token(ContentName), html)
  }

  /** The text part of `convert_md_to_html`: read the front matter, render the
      body with `render` (the Markdown library), choose title and date, and
      fill the template. */
  function ConvertPage(text: string, template: string, render: string -> string, modified: string): (page: string)
    // a template without placeholders is the page, whatever the document
    ensures (&& !Occurs(template, Token(TitleName))
             && !Occurs(template, Token(DateName))
             && !Occurs(template, Token(ContentName))) ==> page == template
  {
    var doc := ReadMetadata(text);
    var html := render(doc.body);
    var title := SelectTitle(doc.metadata, doc.body);
    var date := SelectDate(doc.metadata, modified);
    Substitute(template, title, date, html)
  }

  // ---------------------------------------------------------------------
  // Placeholders and the passes over a template

  /** Every placeholder opens with `{{`. */
  lemma TokenOpens(s: string, name: string, k: int)
    ensures OccursAt(s, Token(name), k) ==> OccursAt(s, Opening, k)
  {
    if OccursAt(s, Token(name), k) {
      assert s[k..k + |Token(name)|][..2] == s[k..k + 2];
    }
  }

  /** A text without `{{` holds no placeholder. */
  lemma NoTokenWithoutOpening(s: string, name: string)
    requires !Occurs(s, Opening)
    ensures !Occurs(s, Token(name))
  {
    forall k | 0 <= k <= |s|
      ensures !OccursAt(s, Token(name), k)
    {
      TokenOpens(s, name, k);
    }
  }

  /** Two braces in a row inside `x` end up in `x + w` at the same place. */
  lemma OpeningInPrefix(x: string, w: string, k: int)
    requires 0 <= k && k + 2 <= |x|
    ensures (x + w)[k] == '{' && (x + w)[k + 1] == '{' ==> OccursAt(x, Opening, k)
  {
    assert x[k..k + 2] == [x[k], x[k + 1]];
  }

  /** No placeholder straddles the end of a text without `{{` and a following
      placeholder: it would need a third brace where a name starts. */
  lemma NoStraddleBeforeToken(x: string, b: string, y: string, a: string)
    requires PlainName(a) && !Occurs(x, Opening)
    ensures NoStraddle(x, Token(b) + y, Token(a))
  {
    var ta := Token(a);
    var s := x + (Token(b) + y);
    assert s == x + Token(b) + y;
    forall k | |x| - |ta| < k < |x| && 0 <= k
      ensures !OccursAt(s, ta, k)
    {
      OccursAtChar(s, ta, k, 0);
      OccursAtChar(s, ta, k, 1);
      if k + 2 <= |x| {
        OpeningInPrefix(x, Token(b) + y, k);
      } else {
        OccursAtChar(s, ta, k, 2);
        assert s[k + 2] == '{' && ta[2] == a[0];
      }
    }
  }

  /** Whether a text ends in a single `{`, which could open a placeholder
      together with a `{` that follows it. */
  predicate EndsInBrace(x: string) {
    |x| > 0 && x[|x| - 1] == '{'
  }

  /** No placeholder straddles the end of a text that holds no `{{` and does
      not end in `{`, whatever follows. */
  lemma NoStraddleAfterPlain(x: string, w: string, a: string)
    requires !Occurs(x, Opening) && !EndsInBrace(x)
    ensures NoStraddle(x, w, Token(a))
  {
    var ta := Token(a);
    forall k | |x| - |ta| < k < |x| && 0 <= k
      ensures !OccursAt(x + w, ta, k)
    {
      OccursAtChar(x + w, ta, k, 0);
      OccursAtChar(x + w, ta, k, 1);
      if k + 2 <= |x| {
        OpeningInPrefix(x, w, k);
      } else {
        assert (x + w)[k] == x[|x| - 1];
      }
    }
  }

  /** A placeholder for another name hides no occurrence of `Token(a)`
      starting inside it, whatever follows it. */
  lemma OtherTokenHidesNone(a: string, b: string, y: string)
    requires PlainName(a) && PlainName(b) && a != b
    ensures forall k :: 0 <= k < |Token(b)| ==> !OccursAt(Token(b) + y, Token(a), k)
  {
    var tb := Token(b);
    var ta := Token(a);
    var s := tb + y;
    forall k | 0 <= k < |tb|
      ensures !OccursAt(s, ta, k)
    {
      OccursAtChar(s, ta, k, 0);
      OccursAtChar(s, ta, k, 1);
      if k == 0 {
        if |a| < |b| {
          OccursAtChar(s, ta, k, 2 + |a|);
        } else if |a| > |b| {
          OccursAtChar(s, ta, k, 2 + |b|);
        } else {
          SameLengthTokenAtFront(a, b, y);
        }
      }
    }
  }

  /** Two placeholders of equal length, one at the front of the other's text,
      have the same name. */
  lemma SameLengthTokenAtFront(a: string, b: string, y: string)
    requires |a| == |b|
    ensures OccursAt(Token(b) + y, Token(a), 0) ==> a == b
  {
    if OccursAt(Token(b) + y, Token(a), 0) {
      var s := Token(b) + y;
      assert s[..|Token(a)|] == Token(a);
      assert s[..|Token(a)|][2..2 + |a|] == b;
      assert Token(a)[2..2 + |a|] == a;
    }
  }

  /** The three placeholder names are plain and distinct. */
  lemma PlainNames()
    ensures PlainName(TitleName) && PlainName(DateName) && PlainName(ContentName)
    ensures TitleName != DateName && TitleName != ContentName && DateName != ContentName
  {
  }

  /** Concatenation regrouped to the right; kept as a lemma so the solver
      proves it apart from the replacement facts in scope at its uses. */
  lemma Assoc(a: string, b: string, c: string)
    ensures a + b + c == a + (b + c)
  {
  }

  /** A text without `{{` passes through every pass unchanged. */
  lemma PassKeepsPlain(y: string, a: string, rep: string)
    requires !Occurs(y, Opening)
    ensures ReplaceAll(y, Token(a), rep) == y
  {
    NoTokenWithoutOpening(y, a);
    ReplaceWithoutOccurrence(y, Token(a), rep);
  }

  /** A pass for one placeholder leaves another placeholder in place. */
  lemma PassSkipsToken(x: string, b: string, y: string, a: string, rep: string)
    requires PlainName(a) && PlainName(b) && a != b && !Occurs(x, Opening)
    ensures ReplaceAll(x + Token(b) + y, Token(a), rep) == x + Token(b) + ReplaceAll(y, Token(a), rep)
  {
    NoStraddleBeforeToken(x, b, y, a);
    ReplaceConcat(x, Token(b) + y, Token(a), rep);
    PassKeepsPlain(x, a, rep);
    OtherTokenHidesNone(a, b, y);
    ReplaceSkipsPrefix(Token(b), y, Token(a), rep);
    Assoc(x, Token(b), y);
  }

  /** A pass for a placeholder replaces it by its value, verbatim. */
  lemma PassFillsToken(x: string, a: string, y: string, rep: string)
    requires PlainName(a) && !Occurs(x, Opening)
    ensures ReplaceAll(x + Token(a) + y, Token(a), rep) == x + rep + ReplaceAll(y, Token(a), rep)
  {
    Assoc(x, Token(a), y);
    calc {
      ReplaceAll(x + Token(a) + y, Token(a), rep);
      ReplaceAll(x + (Token(a) + y), Token(a), rep);
      { NoStraddleBeforeToken(x, a, y, a);
        ReplaceConcat(x, Token(a) + y, Token(a), rep); }
      ReplaceAll(x, Token(a), rep) + ReplaceAll(Token(a) + y, Token(a), rep);
      { PassKeepsPlain(x, a, rep);
        ReplaceAtFront(Token(a), rep, y); }
      x + (rep + ReplaceAll(y, Token(a), rep));
    }
  }

  /** A pass over a value inserted by an earlier pass rewrites that value and
      nothing around it. */
  lemma PassRewritesValue(x: string, v: string, y: string, a: string, rep: string)
    requires PlainName(a) && !Occurs(x, Opening) && !Occurs(y, Opening)
    requires !EndsInBrace(x) && NoStraddle(v, y, Token(a))
    ensures ReplaceAll(x + v + y, Token(a), rep) == x + ReplaceAll(v, Token(a), rep) + y
  {
    NoStraddleAfterPlain(x, v + y, a);
    ReplaceConcat(x, v + y, Token(a), rep);
    ReplaceConcat(v, y, Token(a), rep);
    PassKeepsPlain(x, a, rep);
    PassKeepsPlain(y, a, rep);
    Assoc(x, v, y);
  }

  /** A pass fills every occurrence of its placeholder: a template cut into
      pieces at the copies of the placeholder becomes the same pieces between
      copies of the value. The pieces are those `split` gives back: none
      starts a copy of the placeholder, not even one running into the next. */
  lemma PassFillsEvery(pieces: seq<string>, a: string, rep: string)
    requires forall k :: 0 <= k < |pieces| - 1 ==> !Occurs(pieces[k] + Token(a)[..|Token(a)| - 1], Token(a))
    requires |pieces| > 0 ==> !Occurs(pieces[|pieces| - 1], Token(a))
    ensures ReplaceAll(Join(pieces, Token(a)), Token(a), rep) == Join(pieces, rep)
  {
    if |pieces| > 0 {
      SplitJoin(pieces, Token(a));
      ReplaceIsJoinOfSplit(Join(pieces, Token(a)), Token(a), rep);
    }
  }

  // ---------------------------------------------------------------------
  // Order of the passes

  /** The rendered content goes in last and is never scanned again: whatever
      it contains, `{{title}}` included, appears in the page as is. */
  lemma ContentInsertedVerbatim(x: string, y: string, title: string, date: string, html: string)
    requires !Occurs(x, Opening) && !Occurs(y, Opening)
    ensures Substitute(x + Token(ContentName) + y, title, date, html) == x + html + y
  {
    PlainNames();
    PassSkipsToken(x, ContentName, y, TitleName, title);
    PassKeepsPlain(y, TitleName, title);
    PassSkipsToken(x, ContentName, y, DateName, date);
    PassKeepsPlain(y, DateName, date);
    PassFillsToken(x, ContentName, y, html);
    PassKeepsPlain(y, ContentName, html);
  }

  /** The title goes in first, so the later passes rewrite any `{{date}}` and
      `{{content}}` it contains. */
  lemma TitleRewrittenByLaterPasses(x: string, y: string, title: string, date: string, html: string)
    requires !Occurs(x, Opening) && !Occurs(y, Opening) && !EndsInBrace(x)
    requires NoStraddle(title, y, Token(DateName))
    requires NoStraddle(ReplaceAll(title, Token(DateName), date), y, Token(ContentName))
    ensures Substitute(x + Token(TitleName) + y, title, date, html) ==
      x + ReplaceAll(ReplaceAll(title, Token(DateName), date), Token(ContentName), html) + y
  {
    PlainNames();
    PassFillsToken(x, TitleName, y, title);
    PassKeepsPlain(y, TitleName, title);
    PassRewritesValue(x, title, y, DateName, date);
    PassRewritesValue(x, ReplaceAll(title, Token(DateName), date), y, ContentName, html);
  }

  /** The date goes in second: the content pass rewrites a `{{content}}` in it,
      while a `{{title}}` in it is left alone, the title pass being over. */
  lemma DateRewrittenByContentPass(x: string, y: string, title: string, date: string, html: string)
    requires !Occurs(x, Opening) && !Occurs(y, Opening) && !EndsInBrace(x)
    requires NoStraddle(date, y, Token(ContentName))
    ensures Substitute(x + Token(DateName) + y, title, date, html) ==
      x + ReplaceAll(date, Token(ContentName), html) + y
  {
    PlainNames();
    PassSkipsToken(x, DateName, y, TitleName, title);
    PassKeepsPlain(y, TitleName, title);
    PassFillsToken(x, DateName, y, date);
    PassKeepsPlain(y, DateName, date);
    PassRewritesValue(x, date, y, ContentName, html);
  }

  /** A title that is itself the date placeholder shows as the date, after
      the content pass has gone over it: the date pass rewrites what the
      title pass put in. */
  lemma TitleNamingDate(date: string, html: string)
    ensures Substitute(Token(TitleName), Token(DateName), date, html) ==
      ReplaceAll(date, Token(ContentName), html)
    ensures !Occurs(date, Token(ContentName)) ==>
      Substitute(Token(TitleName), Token(DateName), date, html) == date
  {
    PlainNames();
    var e: string := [];
    assert NoStraddle(Token(DateName), e, Token(DateName));
    assert NoStraddle(ReplaceAll(Token(DateName), Token(DateName), date), e, Token(ContentName));
    TitleRewrittenByLaterPasses(e, e, Token(DateName), date, html);
    assert e + Token(TitleName) + e == Token(TitleName);
    ReplaceAtFront(Token(DateName), date, e);
    assert Token(DateName) + e == Token(DateName);
    assert ReplaceAll(Token(DateName), Token(DateName), date) == date;
    assert e + ReplaceAll(date, Token(ContentName), html) + e == ReplaceAll(date, Token(ContentName), html);
    ReplaceWithoutOccurrence(date, Token(ContentName), html);
  }

  /** The title pass over a template holding each placeholder once. */
  lemma TitlePass(a: string, b: string, c: string, d: string, title: string)
    requires !Occurs(a, Opening) && !Occurs(b, Opening) && !Occurs(c, Opening) && !Occurs(d, Opening)
    ensures ReplaceAll(a + Token(TitleName) + b + Token(DateName) + c + Token(ContentName) + d,
                       Token(TitleName), title)
         == (a + title + b) + Token(DateName) + (c + Token(ContentName) + d)
  {
    PlainNames();
    var tt, td, tc := Token(TitleName), Token(DateName), Token(ContentName);
    var tail := c + tc + d;
    var mid := b + td + tail;
    assert a + tt + b + td + c + tc + d == a + tt + mid;
    assert a + title + mid == (a + title + b) + td + tail;
    PassSkipsToken(c, ContentName, d, TitleName, title);
    PassKeepsPlain(d, TitleName, title);
    assert ReplaceAll(tail, tt, title) == tail;
    PassSkipsToken(b, DateName, tail, TitleName, title);
    assert ReplaceAll(mid, tt, title) == mid;
    PassFillsToken(a, TitleName, mid, title);
  }

  /** The date pass, once the title is in. */
  lemma DatePass(p: string, c: string, d: string, date: string)
    requires !Occurs(p, Opening) && !Occurs(c, Opening) && !Occurs(d, Opening)
    ensures ReplaceAll(p + Token(DateName) + (c + Token(ContentName) + d), Token(DateName), date)
         == (p + date + c) + Token(ContentName) + d
  {
    PlainNames();
    var tc := Token(ContentName);
    var tail := c + tc + d;
    assert p + date + tail == (p + date + c) + tc + d;
    PassSkipsToken(c, ContentName, d, DateName, date);
    PassKeepsPlain(d, DateName, date);
    assert ReplaceAll(tail, Token(DateName), date) == tail;
    PassFillsToken(p, DateName, tail, date);
  }

  /** The content pass, once the title and the date are in. */
  lemma ContentPass(p: string, d: string, html: string)
    requires !Occurs(p, Opening) && !Occurs(d, Opening)
    ensures ReplaceAll(p + Token(ContentName) + d, Token(ContentName), html) == p + html + d
  {
    PlainNames();
    PassFillsToken(p, ContentName, d, html);
    PassKeepsPlain(d, ContentName, html);
  }

  /** A template holding each placeholder once, in page order: when no `{{`
      other than the placeholders' own occurs in the page text before the
      content goes in (template text, title and date), nor in the template
      text after it, every placeholder is filled with its value and the rest
      of the template is kept. Single braces, as in style sheets and scripts,
      are allowed anywhere. */
  lemma FillsEachPlaceholder(a: string, b: string, c: string, d: string,
                             title: string, date: string, html: string)
    requires !Occurs(a + title + b + date + c, Opening) && !Occurs(d, Opening)
    ensures Substitute(a + Token(TitleName) + b + Token(DateName) + c + Token(ContentName) + d,
                       title, date, html)
         == a + title + b + date + c + html + d
  {
    var before := a + title + b + date + c;
    assert before == [] + a + (title + b + date + c);
    OccursInInfix([], a, title + b + date + c, Opening);
    assert before == (a + title) + b + (date + c);
    OccursInInfix(a + title, b, date + c, Opening);
    assert before == (a + title + b + date) + c + [];
    OccursInInfix(a + title + b + date, c, [], Opening);
    assert before == [] + (a + title + b) + (date + c);
    OccursInInfix([], a + title + b, date + c, Opening);
    TitlePass(a, b, c, d, title);
    DatePass(a + title + b, c, d, date);
    ContentPass(before, d, html);
    assert a + title + b + date + c + html + d == before + html + d;
  }

  /** A template may use the title placeholder any number of times, as in
      `<title>{{title}}</title>` and `<h1>{{title}}</h1>` on one page: cut
      at its copies of `{{title}}`, it shows the title at every copy, and
      nothing else changes when the result holds no other placeholder. */
  lemma RepeatedTitle(pieces: seq<string>, title: string, date: string, html: string)
    requires forall k :: 0 <= k < |pieces| - 1 ==>
      !Occurs(pieces[k] + Token(TitleName)[..|Token(TitleName)| - 1], Token(TitleName))
    requires |pieces| > 0 ==> !Occurs(pieces[|pieces| - 1], Token(TitleName))
    requires !Occurs(Join(pieces, title), Token(DateName)) && !Occurs(Join(pieces, title), Token(ContentName))
    ensures Substitute(Join(pieces, Token(TitleName)), title, date, html) == Join(pieces, title)
  {
    PassFillsEvery(pieces, TitleName, title);
    ReplaceWithoutOccurrence(Join(pieces, title), Token(DateName), date);
    ReplaceWithoutOccurrence(Join(pieces, title), Token(ContentName), html);
  }

  // ---------------------------------------------------------------------
  // Title selection

  /** The rest of a line from a given start is unique. */
  lemma RestOfLineUnique(s: string, start: int, t: string, u: string)
    requires RestOfLine(s, start, t) && RestOfLine(s, start, u)
    ensures t == u
  {
  }

  /** With no usable metadata title, a heading at any level supplies the title:
      `## X` gives `X` as much as `# X` does, for the leftmost `# ` wins. */
  lemma HeadingAtAnyLevel(metadata: map<string, string>, p: string, x: string, rest: string)
    requires Lookup(metadata, TitleName).None?
    requires !Occurs(p, HeadingMark) && '\n' !in x && (rest == [] || rest[0] == '\n')
    ensures SelectTitle(metadata, p + HeadingMark + x + rest) == x
  {
    var body := p + HeadingMark + x + rest;
    assert body == p + HeadingMark + (x + rest);
    HeadingFoundAfter(p, x + rest);
    LineBeforeBreak(p + HeadingMark, x, rest);
    var title := SelectTitle(metadata, body);
    var i :| FirstOccurrenceFrom(body, HeadingMark, 0, i) && RestOfLine(body, i + 2, title);
    FirstOccurrenceUnique(body, HeadingMark, i, |p|);
    RestOfLineUnique(body, |p| + 2, title, x);
  }

  /** The heading mark placed right after a text without one is the leftmost. */
  lemma HeadingFoundAfter(p: string, rest: string)
    requires !Occurs(p, HeadingMark)
    ensures FirstOccurrenceFrom(p + HeadingMark + rest, HeadingMark, 0, |p|)
  {
    var body := p + HeadingMark + rest;
    assert body[|p|..|p| + 2] == HeadingMark;
    assert body[..|p|] == p;
    forall k | 0 <= k < |p|
      ensures !OccursAt(body, HeadingMark, k)
    {
      OccursInPrefixOf(body, |p|, HeadingMark, k);
      OccursAtChar(body, HeadingMark, k, 1);
    }
  }

  /** A piece without line feeds, followed by a line feed or the end, is the
      rest of its line. */
  lemma LineBeforeBreak(p: string, x: string, rest: string)
    requires '\n' !in x && (rest == [] || rest[0] == '\n')
    ensures RestOfLine(p + x + rest, |p|, x)
  {
    var s := p + x + rest;
    assert s[|p|..|p| + |x|] == x;
    if rest != [] {
      assert s[|p| + |x|] == rest[0];
    }
  }

  /** `## Hello` supplies the title `Hello`. */
  lemma SecondLevelHeadingExample()
    ensures SelectTitle(map[], "## Hello\nWorld") == "Hello"
  {
    assert "## Hello\nWorld" == "#" + HeadingMark + "Hello" + "\nWorld";
    assert !Occurs("#", HeadingMark);
    HeadingAtAnyLevel(map[], "#", "Hello", "\nWorld");
  }

  /** The title never spans lines when no metadata value does. */
  lemma TitleIsSingleLineFor(metadata: map<string, string>, body: string)
    requires forall k :: k in metadata ==> '\n' !in metadata[k]
    ensures '\n' !in SelectTitle(metadata, body)
  {
    if Lookup(metadata, TitleName).None? && Occurs(body, HeadingMark) {
      var title := SelectTitle(metadata, body);
      var i :| FirstOccurrenceFrom(body, HeadingMark, 0, i) && RestOfLine(body, i + 2, title);
    } else if Lookup(metadata, TitleName).None? {
      assert DefaultTitle == "Blog Post";
    }
  }

  /** The chosen title never spans lines: metadata values are read line by
      line, and a heading's text stops at the line feed. */
  lemma TitleIsSingleLine(text: string)
    ensures '\n' !in SelectTitle(ReadMetadata(text).metadata, ReadMetadata(text).body)
  {
    var d := ReadMetadata(text);
    MetadataFromBlock(text);
    if d.metadata != map[] {
      var block :| d.metadata == ParseBlock(block);
      MetadataIsSingleLine(block);
    }
    TitleIsSingleLineFor(d.metadata, d.body);
  }

  // ---------------------------------------------------------------------
  // The whole conversion

  /** A document with no front matter and no heading is rendered whole, under
      the fallback title and the file's modification date. */
  lemma PlainDocumentPage(text: string, template: string, render: string -> string, modified: string)
    requires !StartsWith(text, Marker) && !Occurs(text, HeadingMark)
    ensures ConvertPage(text, template, render, modified) == Substitute(template, DefaultTitle, modified, render(text))
  {
  }

  /** Reading a post whose front matter gives a title and a date: the block
      between the markers is the metadata, the body is what follows the
      closing marker, and both the title and the date come from the block. */
  lemma PostDocument(title: string, date: string, body: string)
    requires WellFormed(Entry(TitleName, title)) && WellFormed(Entry(DateName, date))
    requires !Occurs(title, Marker) && !Occurs(date, Marker) && Trimmed(body)
    ensures var doc := ReadMetadata(Marker + "\ntitle: " + title + "\ndate: " + date + "\n" + Marker + "\n" + body);
      && doc.body == body
      && Lookup(doc.metadata, TitleName) == Some(title)
      && Lookup(doc.metadata, DateName) == Some(date)
  {
    var entries := [Entry(TitleName, title), Entry(DateName, date)];
    PostLines(title, date, body);
    NoMarkerInName(TitleName);
    NoMarkerInName(DateName);
    DocumentRoundTrip(entries, body);
    assert entries[0].key == TitleName && entries[1].key == DateName;
  }

  /** A post written with a title and a date as front matter. */
  lemma PostLines(title: string, date: string, body: string)
    ensures WriteDocument([Entry(TitleName, title), Entry(DateName, date)], body)
         == Marker + "\ntitle: " + title + "\ndate: " + date + "\n" + Marker + "\n" + body
  {
    var entries := [Entry(TitleName, title), Entry(DateName, date)];
    var lines := FormatLines(entries);
    assert lines[1..] == [FormatLine(entries[1])];
    var block := FormatLine(entries[0]) + "\n" + FormatLine(entries[1]);
    assert Join(lines, "\n") == block;
    assert block == "title: " + title + "\ndate: " + date;
  }

  /** A name without a dash holds no marker. */
  lemma NoMarkerInName(name: string)
    requires '-' !in name
    ensures !Occurs(name, Marker)
  {
    forall k | 0 <= k <= |name|
      ensures !OccursAt(name, Marker, k)
    {
      OccursAtChar(name, Marker, k, 0);
    }
  }

  /** A post whose front matter gives a title and a date, under a template
      that holds each placeholder once: the page shows that title, that date
      and the rendered body, and the heading and the file's date go unused. */
  lemma PostPage(title: string, date: string, body: string,
                 a: string, b: string, c: string, d: string,
                 render: string -> string, modified: string)
    requires WellFormed(Entry(TitleName, title)) && WellFormed(Entry(DateName, date))
    requires !Occurs(title, Marker) && !Occurs(date, Marker) && Trimmed(body)
    requires !Occurs(a + title + b + date + c, Opening) && !Occurs(d, Opening)
    ensures ConvertPage(Marker + "\ntitle: " + title + "\ndate: " + date + "\n" + Marker + "\n" + body,
                        a + Token(TitleName) + b + Token(DateName) + c + Token(ContentName) + d,
                        render, modified)
         == a + title + b + date + c + render(body) + d
  {
    PostDocument(title, date, body);
    FillsEachPlaceholder(a, b, c, d, title, date, render(body));
  }

}

=== FILE: replace.dfy ===
/**
  `str.replace(old, new)` with no count: every occurrence of `old` is replaced,
  scanning left to right, occurrences do not overlap, and the inserted text is
  never scanned again.
 */
module Replace {

  import opened Text

  /** Replace every occurrence of `pat` in `s` by `rep`. At each position the
      scan either matches `pat` (emitting `rep` and resuming after the match)
      or copies one character. */
  function ReplaceAll(s: string, pat: string, rep: string): (r: string)
    requires |pat| > 0
    decreases |s|
    // a same-length replacement keeps the length
    ensures |rep| == |pat| ==> |r| == |s|
  {
    if |s| == 0 then []
    else if StartsWith(s, pat) then rep + ReplaceAll(s[|pat|..], pat, rep)
    else
      ShiftOccurs(s, pat);
      [s[0]] + ReplaceAll(s[1..], pat, rep)
  }

  /** An occurrence in a proper suffix is an occurrence in the whole. */
  lemma ShiftOccurs(s: string, pat: string)
    requires |s| > 0
    ensures Occurs(s[1..], pat) ==> Occurs(s, pat)
  {
    if Occurs(s[1..], pat) {
      var k :| 0 <= k <= |s[1..]| && OccursAt(s[1..], pat, k);
      assert s[k + 1..k + 1 + |pat|] == s[1..][k..k + |pat|];
      assert OccursAt(s, pat, k + 1);
    }
  }

  /** A text in which the pattern does not occur comes back unchanged. */
  lemma {:induction false} ReplaceWithoutOccurrence(s: string, pat: string, rep: string)
    requires |pat| > 0
    ensures !Occurs(s, pat) ==> ReplaceAll(s, pat, rep) == s
    decreases |s|
  {
    if |s| > 0 && !Occurs(s, pat) {
      assert !OccursAt(s, pat, 0);
      ShiftOccurs(s, pat);
      ReplaceWithoutOccurrence(s[1..], pat, rep);
      assert s == [s[0]] + s[1..];
    }
  }

  /** The replacement text is emitted as is: a match at the front contributes
      exactly `rep`, which the scan does not look at again, even when `rep`
      itself contains `pat`. */
  lemma ReplaceAtFront(pat: string, rep: string, rest: string)
    requires |pat| > 0
    ensures ReplaceAll(pat + rest, pat, rep) == rep + ReplaceAll(rest, pat, rep)
  {
    assert (pat + rest)[..|pat|] == pat;
    assert (pat + rest)[|pat|..] == rest;
  }

  /** One step of the scan at a position where `pat` does not start. */
  lemma ReplaceCopiesChar(s: string, pat: string, rep: string)
    requires |pat| > 0 && |s| > 0 && !StartsWith(s, pat)
    ensures ReplaceAll(s, pat, rep) == [s[0]] + ReplaceAll(s[1..], pat, rep)
  {
  }

  /** A prefix `x` in which no occurrence of `pat` starts (within `x + y`) is
      copied unchanged, and the scan resumes exactly at `y`. */
  lemma {:induction false} ReplaceSkipsPrefix(x: string, y: string, pat: string, rep: string)
    requires |pat| > 0
    requires forall k :: 0 <= k < |x| ==> !OccursAt(x + y, pat, k)
    ensures ReplaceAll(x + y, pat, rep) == x + ReplaceAll(y, pat, rep)
    decreases |x|
  {
    if |x| > 0 {
      var x' := x[1..];
      assert (x + y)[1..] == x' + y;
      forall k | 0 <= k < |x'|
        ensures !OccursAt(x' + y, pat, k)
      {
        OccursInSuffix(x + y, pat, 1, k);
      }
      ReplaceSkipsPrefix(x', y, pat, rep);
      ReplaceCopiesChar(x + y, pat, rep);
      assert x == [x[0]] + x';
    } else {
      assert x + y == y;
    }
  }

  /** Replacement around the leftmost occurrence at `i`: the text before it
      is kept, `rep` is emitted, and the scan continues after the occurrence. */
  lemma ReplaceAtLeftmost(s: string, pat: string, rep: string, i: nat)
    requires |pat| > 0 && FirstOccurrenceFrom(s, pat, 0, i)
    ensures ReplaceAll(s, pat, rep) == s[..i] + rep + ReplaceAll(s[i + |pat|..], pat, rep)
  {
    SplitAtOccurrence(s, pat, i);
    ReplaceSkipsPrefix(s[..i], s[i..], pat, rep);
    ReplaceAtFront(pat, rep, s[i + |pat|..]);
  }

  /** Reference description of `str.replace`: find the leftmost occurrence,
      keep the text before it, emit `rep`, and continue after the occurrence;
      with no occurrence the text is unchanged. */
  lemma ReplaceLeftmost(s: string, pat: string, rep: string)
    requires |pat| > 0
    ensures Find(s, pat).None? ==> ReplaceAll(s, pat, rep) == s
    ensures Find(s, pat).Some? ==>
      var i := Find(s, pat).value;
      ReplaceAll(s, pat, rep) == s[..i] + rep + ReplaceAll(s[i + |pat|..], pat, rep)
  {
    var f := Find(s, pat);
    if f.None? {
      ReplaceWithoutOccurrence(s, pat, rep);
    } else {
      ReplaceAtLeftmost(s, pat, rep, f.value);
    }
  }

  /** Python's identity `s.replace(pat, rep) == rep.join(s.split(pat))`:
      replacing every occurrence is cutting at every occurrence and gluing
      the pieces back with `rep`. */
  lemma {:induction false} ReplaceIsJoinOfSplit(s: string, pat: string, rep: string)
    requires |pat| > 0
    ensures ReplaceAll(s, pat, rep) == Join(Split(s, pat, -1), rep)
    decreases |s|
  {
    ReplaceLeftmost(s, pat, rep);
    match Find(s, pat)
    case None =>
      SplitStops(s, pat, -1);
    case Some(i) =>
      var rest := s[i + |pat|..];
      SplitCuts(s, pat, -1, i);
      ReplaceIsJoinOfSplit(rest, pat, rep);
      var pieces := Split(rest, pat, -1);
      assert ([s[..i]] + pieces)[1..] == pieces;
  }

  /** Replacing a pattern by itself changes nothing. */
  lemma {:induction false} ReplaceBySelf(s: string, pat: string)
    requires |pat| > 0
    ensures ReplaceAll(s, pat, pat) == s
    decreases |s|
  {
    if |s| == 0 {
    } else if StartsWith(s, pat) {
      ReplaceBySelf(s[|pat|..], pat);
      assert s == s[..|pat|] + s[|pat|..];
    } else {
      ReplaceBySelf(s[1..], pat);
      assert s == [s[0]] + s[1..];
    }
  }

  /** No occurrence of `pat` straddles the boundary between `x` and `y`. */
  predicate NoStraddle(x: string, y: string, pat: string) {
    forall k :: |x| - |pat| < k < |x| ==> !OccursAt(x + y, pat, k)
  }

  /** Replacement distributes over concatenation when no occurrence of the
      pattern straddles the seam. */
  lemma {:induction false} ReplaceConcat(x: string, y: string, pat: string, rep: string)
    requires |pat| > 0
    requires NoStraddle(x, y, pat)
    ensures ReplaceAll(x + y, pat, rep) == ReplaceAll(x, pat, rep) + ReplaceAll(y, pat, rep)
    decreases |x|
  {
    if |x| == 0 {
      assert x + y == y;
    } else if StartsWith(x, pat) {
      var x' := x[|pat|..];
      assert (x + y)[..|pat|] == x[..|pat|];
      assert (x + y)[|pat|..] == x' + y;
      StraddleShift(x, y, pat, |pat|);
      ReplaceConcat(x', y, pat, rep);
    } else {
      var x' := x[1..];
      assert !StartsWith(x + y, pat) by {
        if |pat| <= |x| {
          assert (x + y)[..|pat|] == x[..|pat|];
        } else {
          assert !OccursAt(x + y, pat, 0);
        }
      }
      assert (x + y)[1..] == x' + y;
      StraddleShift(x, y, pat, 1);
      ReplaceConcat(x', y, pat, rep);
    }
  }

  /** Dropping a prefix of `x` keeps the seam free of straddling occurrences. */
  lemma StraddleShift(x: string, y: string, pat: string, d: nat)
    requires d <= |x| && NoStraddle(x, y, pat)
    ensures NoStraddle(x[d..], y, pat)
  {
    var s := x + y;
    assert x[d..] + y == s[d..];
    forall k | |x[d..]| - |pat| < k < |x[d..]|
      ensures !OccursAt(x[d..] + y, pat, k)
    {
      assert !OccursAt(s, pat, k + d);
      if k >= 0 && k + |pat| <= |s[d..]| {
        assert s[d..][k..k + |pat|] == s[k + d..k + d + |pat|];
      }
    }
  }

}

=== FILE: text.dfy ===
/**
  String primitives the converter relies on, stated over `seq<char>`:
  whitespace stripping (`str.strip`), substring search (`str.find`, `in`),
  and splitting with an optional limit (`str.split(sep, maxsplit)`) together
  with its inverse, joining.
 */
module Text {

  import opened Options

  /** Six of the ASCII characters `str.strip()` removes: space, tab, line
      feed, carriage return, vertical tab and form feed. */
  predicate IsSpace(c: char) {
    c == ' ' || c == '\t' || c == '\n' || c == '\r' || c == '\U{000B}' || c == '\U{000C}'
  }

  predicate AllSpace(s: string) {
    forall i :: 0 <= i < |s| ==> IsSpace(s[i])
  }

  /** Neither end of `s` is whitespace. */
  predicate Trimmed(s: string) {
    s == [] || (!IsSpace(s[0]) && !IsSpace(s[|s| - 1]))
  }

  /** The length of the whitespace run that starts `s`. */
  function LeadingSpace(s: string): (n: nat)
    ensures n <= |s|
    ensures AllSpace(s[..n])
    ensures n < |s| ==> !IsSpace(s[n])
  {
    if |s| == 0 || !IsSpace(s[0]) then 0
    else
      var m := LeadingSpace(s[1..]);
      assert s[..m + 1] == [s[0]] + s[1..][..m];
      1 + m
  }

  /** The length of the whitespace run that ends `s`. */
  function TrailingSpace(s: string): (n: nat)
    ensures n <= |s|
    ensures AllSpace(s[|s| - n..])
    ensures n < |s| ==> !IsSpace(s[|s| - n - 1])
  {
    if |s| == 0 || !IsSpace(s[|s| - 1]) then 0
    else
      var t := s[..|s| - 1];
      var m := TrailingSpace(t);
      assert s[|s| - (m + 1)..] == t[|t| - m..] + [s[|s| - 1]];
      1 + m
  }

  /** `str.strip()`: drop the leading, then the trailing whitespace run. */
  function Strip(s: string): (r: string)
    ensures Trimmed(r)
    ensures exists i, j :: 0 <= i <= j <= |s| && r == s[i..j] && AllSpace(s[..i]) && AllSpace(s[j..])
  {
    var i := LeadingSpace(s);
    var t := s[i..];
    var j := i + |t| - TrailingSpace(t);
    assert t[..|t| - TrailingSpace(t)] == s[i..j];
    assert s[j..] == t[|t| - TrailingSpace(t)..];
    s[i..j]
  }

  /** A whitespace run is determined by its end: `LeadingSpace` is the unique such index. */
  lemma {:induction false} LeadingSpaceUnique(s: string, k: nat)
    requires k <= |s| && AllSpace(s[..k]) && (k < |s| ==> !IsSpace(s[k]))
    ensures LeadingSpace(s) == k
    decreases k
  {
    if k > 0 {
      assert s[..k][0] == s[0];
      assert s[1..][..k - 1] == s[..k][1..];
      LeadingSpaceUnique(s[1..], k - 1);
    }
  }

  /** Likewise the whitespace run that ends `s` is determined by its start. */
  lemma {:induction false} TrailingSpaceUnique(s: string, k: nat)
    requires k <= |s| && AllSpace(s[|s| - k..]) && (k < |s| ==> !IsSpace(s[|s| - k - 1]))
    ensures TrailingSpace(s) == k
    decreases k
  {
    if k > 0 {
      var t := s[..|s| - 1];
      assert s[|s| - k..][k - 1] == s[|s| - 1];
      var u := t[|t| - (k - 1)..];
      forall j | 0 <= j < |u|
        ensures IsSpace(u[j])
      {
        assert s[|s| - k..][j] == s[|s| - k + j];
      }
      if k < |s| {
        assert t[|t| - (k - 1) - 1] == s[|s| - k - 1];
      }
      TrailingSpaceUnique(t, k - 1);
    }
  }

  /** Reference characterisation of `Strip`: whatever whitespace surrounds a
      trimmed middle part, stripping yields exactly that middle part. */
  lemma StripUnique(a: string, m: string, b: string)
    requires AllSpace(a) && AllSpace(b) && Trimmed(m)
    ensures Strip(a + m + b) == m
  {
    var s := a + m + b;
    if m == [] {
      assert s == a + b;
      LeadingSpaceUnique(s, |s|);
      assert s[|s|..] == [];
    } else {
      assert s[..|a|] == a;
      assert s[|a|] == m[0];
      LeadingSpaceUnique(s, |a|);
      var t := s[|a|..];
      assert t == m + b;
      assert t[|t| - |b|..] == b;
      assert t[|t| - |b| - 1] == m[|m| - 1];
      TrailingSpaceUnique(t, |b|);
      assert s[|a|..|a| + |m|] == m;
    }
  }

  /** Stripping twice is stripping once. */
  lemma StripIdempotent(s: string)
    ensures Strip(Strip(s)) == Strip(s)
  {
    var r := Strip(s);
    assert AllSpace([]);
    assert [] + r + [] == r;
    StripUnique([], r, []);
  }

  /** `p` occurs in `s` starting at index `i`. */
  predicate OccursAt(s: string, p: string, i: int) {
    0 <= i && i + |p| <= |s| && s[i..i + |p|] == p
  }

  /** Python's `p in s`. */
  predicate Occurs(s: string, p: string) {
    exists i | 0 <= i <= |s| :: OccursAt(s, p, i)
  }

  /** `s.startswith(p)`. */
  predicate StartsWith(s: string, p: string) {
    OccursAt(s, p, 0)
  }

  /** `j` is the first index at or after `from` where `p` occurs in `s`. */
  predicate FirstOccurrenceFrom(s: string, p: string, from: int, j: int) {
    from <= j && OccursAt(s, p, j) && forall k :: from <= k < j ==> !OccursAt(s, p, k)
  }

  /** `s.find(p, from)`, with `None` for Python's -1. */
  function FindFrom(s: string, p: string, from: nat): (r: Option<nat>)
    decreases |s| - from
    ensures r.Some? ==> FirstOccurrenceFrom(s, p, from, r.value)
    ensures r.None? ==> forall k :: from <= k ==> !OccursAt(s, p, k)
  {
    if from + |p| > |s| then None
    else if s[from..from + |p|] == p then Some(from)
    else FindFrom(s, p, from + 1)
  }

  /** `s.find(p)`: the leftmost occurrence of `p` in `s`, if any. */
  function Find(s: string, p: string): (r: Option<nat>)
    ensures r.Some? ==> FirstOccurrenceFrom(s, p, 0, r.value)
    ensures r.None? <==> !Occurs(s, p)
  {
    FindFrom(s, p, 0)
  }

  /** Occurrences in a suffix are occurrences in the whole, shifted. */
  lemma OccursInSuffix(s: string, p: string, d: nat, k: int)
    requires d <= |s| && 0 <= k
    ensures OccursAt(s[d..], p, k) <==> OccursAt(s, p, k + d)
  {
    if k + |p| <= |s[d..]| {
      assert s[d..][k..k + |p|] == s[k + d..k + d + |p|];
    }
  }

  /** Searching a suffix finds the first occurrence at or after its start. */
  lemma FindInSuffix(s: string, p: string, d: nat)
    requires d <= |s|
    ensures Find(s[d..], p).None? ==> forall j :: d <= j ==> !OccursAt(s, p, j)
    ensures Find(s[d..], p).Some? ==> FirstOccurrenceFrom(s, p, d, Find(s[d..], p).value + d)
  {
    forall j | d <= j
      ensures OccursAt(s, p, j) <==> OccursAt(s[d..], p, j - d)
    {
      OccursInSuffix(s, p, d, j - d);
    }
  }

  /** Indexing a prefix is indexing the whole. */
  lemma IndexInPrefix(s: string, i: int, j: int)
    requires 0 <= j < i <= |s|
    ensures s[..i][j] == s[j]
  {
  }

  /** An occurrence agrees with the pattern character by character. */
  lemma OccursAtChar(s: string, p: string, k: int, j: int)
    requires 0 <= j < |p|
    ensures OccursAt(s, p, k) ==> s[k + j] == p[j]
  {
    if OccursAt(s, p, k) {
      assert s[k..k + |p|][j] == s[k + j];
    }
  }

  /** Slicing a suffix is slicing the whole, shifted. */
  lemma SliceOfSuffix(s: string, d: int, i: int)
    requires 0 <= d && 0 <= i && d + i <= |s|
    ensures s[d..][..i] == s[d..d + i] && s[d..][i..] == s[d + i..]
  {
  }

  /** The outer pieces of a three-part concatenation. */
  lemma ConcatSlices(a: string, b: string, c: string)
    ensures (a + b + c)[..|a|] == a && (a + b + c)[|a| + |b|..] == c
  {
  }

  /** A text splits around an occurrence: what precedes it, the pattern, and
      what follows it. */
  lemma SplitAtOccurrence(s: string, p: string, i: int)
    requires OccursAt(s, p, i)
    ensures s[..i] + s[i..] == s && s[i..] == p + s[i + |p|..]
  {
    assert s[i..] == s[i..i + |p|] + s[i + |p|..];
  }

  /** The occurrences in a prefix are the occurrences in the whole that end
      within it. */
  lemma OccursInPrefixOf(s: string, n: int, p: string, j: int)
    requires 0 <= n <= |s|
    ensures OccursAt(s[..n], p, j) <==> OccursAt(s, p, j) && j + |p| <= n
  {
    if 0 <= j && j + |p| <= n {
      assert s[..n][j..j + |p|] == s[j..j + |p|];
    }
  }

  /** An occurrence in a middle piece is an occurrence in the whole. */
  lemma OccursInInfix(x: string, y: string, z: string, p: string)
    ensures Occurs(y, p) ==> Occurs(x + y + z, p)
  {
    if Occurs(y, p) {
      var k :| 0 <= k <= |y| && OccursAt(y, p, k);
      var s := x + y + z;
      assert s[|x| + k..|x| + k + |p|] == y[k..k + |p|];
      assert OccursAt(s, p, |x| + k);
    }
  }

  /** An occurrence cannot cross a character the pattern does not hold: in
      `a + [c] + b` every occurrence lies within `a` or within `b`. */
  lemma OccursAround(a: string, c: char, b: string, p: string)
    requires c !in p
    ensures Occurs(a + [c] + b, p) ==> Occurs(a, p) || Occurs(b, p)
  {
    var s := a + [c] + b;
    assert s[..|a|] == a && s[|a| + 1..] == b && s[|a|] == c;
    forall k | |a| - |p| < k <= |a| && 0 <= k
      ensures !OccursAt(s, p, k)
    {
      OccursAtChar(s, p, k, |a| - k);
    }
    if Occurs(s, p) {
      var k :| 0 <= k <= |s| && OccursAt(s, p, k);
      if k + |p| <= |a| {
        OccursInPrefixOf(s, |a|, p, k);
        assert OccursAt(a, p, k);
      } else {
        OccursInSuffix(s, p, |a| + 1, k - |a| - 1);
        assert OccursAt(b, p, k - |a| - 1);
      }
    }
  }

  /** A one-character pattern occurs exactly where that character is. */
  lemma OccursChar(s: string, c: char, i: int)
    ensures OccursAt(s, [c], i) <==> (0 <= i < |s| && s[i] == c)
  {
    if 0 <= i < |s| {
      assert s[i..i + 1] == [s[i]];
    }
  }

  /** A one-character pattern occurs exactly when the character is present. */
  lemma OccursCharIn(s: string, c: char)
    ensures Occurs(s, [c]) <==> c in s
  {
    if c in s {
      var i :| 0 <= i < |s| && s[i] == c;
      OccursChar(s, c, i);
    } else {
      forall i | 0 <= i <= |s|
        ensures !OccursAt(s, [c], i)
      {
        OccursChar(s, c, i);
      }
    }
  }

  /** Cutting at the leftmost occurrence leaves a first piece in which no
      occurrence starts, not even one that would overlap the separator. */
  lemma CutIsLeftmost(s: string, sep: string, i: nat)
    requires |sep| > 0 && FirstOccurrenceFrom(s, sep, 0, i)
    ensures !Occurs(s[..i] + sep[..|sep| - 1], sep)
  {
    var a := s[..i] + sep[..|sep| - 1];
    assert a == s[..i + |sep| - 1];
    forall j | 0 <= j <= |a|
      ensures !OccursAt(a, sep, j)
    {
      OccursInPrefixOf(s, i + |sep| - 1, sep, j);
    }
  }

  /** `str.join`: the pieces with `sep` between consecutive ones. */
  function Join(parts: seq<string>, sep: string): string
  {
    if |parts| == 0 then []
    else if |parts| == 1 then parts[0]
    else parts[0] + sep + Join(parts[1..], sep)
  }

  /** Joining at a one-character separator the pattern does not hold creates
      no occurrence: one in the join lies within a piece. */
  lemma {:induction false} JoinAvoidsPattern(parts: seq<string>, c: char, p: string)
    requires |p| > 0 && c !in p && forall i :: 0 <= i < |parts| ==> !Occurs(parts[i], p)
    ensures !Occurs(Join(parts, [c]), p)
    decreases |parts|
  {
    if |parts| > 1 {
      assert forall i :: 0 <= i < |parts[1..]| ==> parts[1..][i] == parts[i + 1];
      JoinAvoidsPattern(parts[1..], c, p);
      OccursAround(parts[0], c, Join(parts[1..], [c]), p);
    }
  }

  /** What `s.split(sep, maxsplit)` promises of its pieces. */
  predicate IsSplit(s: string, sep: string, maxsplit: int, parts: seq<string>)
    requires |sep| > 0
  {
    && 1 <= |parts|
    && (maxsplit >= 0 ==> |parts| <= maxsplit + 1)
    // joining the pieces back gives the input
    && Join(parts, sep) == s
    // each cut was made at the leftmost separator in what remained: no
    // separator starts inside a piece, even one running into the cut
    && (forall k :: 0 <= k < |parts| - 1 ==> !Occurs(parts[k] + sep[..|sep| - 1], sep))
    // when the limit was not exhausted, nothing is left to cut
    && (maxsplit < 0 || |parts| <= maxsplit ==> !Occurs(parts[|parts| - 1], sep))
  }

  /** `s.split(sep, maxsplit)` for a non-empty separator: cut at the leftmost
      occurrence of `sep`, then continue after it, at most `maxsplit` times
      (no limit when `maxsplit` is negative, as in Python's default of -1). */
  function Split(s: string, sep: string, maxsplit: int): (parts: seq<string>)
    requires |sep| > 0
    decreases |s|
    ensures IsSplit(s, sep, maxsplit, parts)
  {
    if maxsplit == 0 then [s]
    else match Find(s, sep)
      case None => [s]
      case Some(i) =>
        var rest := Split(s[i + |sep|..], sep, if maxsplit > 0 then maxsplit - 1 else maxsplit);
        SplitStep(s, sep, maxsplit, i, rest);
        [s[..i]] + rest
  }

  /** The step of `Split`'s proof: a cut at the leftmost separator followed
      by a split of what remains, with one cut fewer, splits the text. */
  lemma SplitStep(s: string, sep: string, maxsplit: int, i: nat, rest: seq<string>)
    requires |sep| > 0 && maxsplit != 0 && FirstOccurrenceFrom(s, sep, 0, i)
    requires IsSplit(s[i + |sep|..], sep, if maxsplit > 0 then maxsplit - 1 else maxsplit, rest)
    ensures IsSplit(s, sep, maxsplit, [s[..i]] + rest)
  {
    var parts := [s[..i]] + rest;
    assert parts[1..] == rest;
    assert forall k :: 1 <= k < |parts| ==> parts[k] == rest[k - 1];
    SplitAtOccurrence(s, sep, i);
    CutIsLeftmost(s, sep, i);
  }

  /** No piece of an unlimited split holds the separator. */
  lemma SplitPiecesFree(s: string, sep: string)
    requires |sep| > 0
    ensures forall k :: 0 <= k < |Split(s, sep, -1)| ==> !Occurs(Split(s, sep, -1)[k], sep)
  {
    var parts := Split(s, sep, -1);
    forall k | 0 <= k < |parts| - 1
      ensures !Occurs(parts[k], sep)
    {
      var w := parts[k] + sep[..|sep| - 1];
      assert w[..|parts[k]|] == parts[k];
      forall j | 0 <= j <= |parts[k]|
        ensures !OccursAt(parts[k], sep, j)
      {
        OccursInPrefixOf(w, |parts[k]|, sep, j);
      }
    }
  }

  /** `Split` cuts at the leftmost separator while the limit allows. */
  lemma SplitCuts(s: string, sep: string, maxsplit: int, i: nat)
    requires |sep| > 0 && maxsplit != 0 && Find(s, sep) == Some(i)
    ensures Split(s, sep, maxsplit) ==
      [s[..i]] + Split(s[i + |sep|..], sep, if maxsplit > 0 then maxsplit - 1 else maxsplit)
  {
  }

  /** `Split` returns the text whole once the limit is spent or no separator
      is left. */
  lemma SplitStops(s: string, sep: string, maxsplit: int)
    requires |sep| > 0 && (maxsplit == 0 || Find(s, sep).None?)
    ensures Split(s, sep, maxsplit) == [s]
  {
  }

  /** A text that starts with the pattern has its leftmost occurrence at 0. */
  lemma FindAtFront(s: string, p: string)
    requires StartsWith(s, p)
    ensures Find(s, p) == Some(0)
  {
    assert Occurs(s, p);
  }

  /** `Split` with no limit inverts `Join`: pieces in which no separator
      starts (even one running into the next cut) come back as they were. */
  lemma {:induction false} SplitJoin(parts: seq<string>, sep: string)
    requires |sep| > 0 && |parts| >= 1
    requires forall k :: 0 <= k < |parts| - 1 ==> !Occurs(parts[k] + sep[..|sep| - 1], sep)
    requires !Occurs(parts[|parts| - 1], sep)
    ensures Split(Join(parts, sep), sep, -1) == parts
    decreases |parts|
  {
    if |parts| > 1 {
      var a := parts[0];
      var rest := parts[1..];
      var t := Join(rest, sep);
      assert rest[|rest| - 1] == parts[|parts| - 1];
      forall k | 0 <= k < |rest| - 1
        ensures !Occurs(rest[k] + sep[..|sep| - 1], sep)
      {
        assert rest[k] == parts[k + 1];
      }
      SplitJoin(rest, sep);
      LeftmostAtSeparator(a, sep, t);
      ConcatSlices(a, sep, t);
      SplitCuts(a + sep + t, sep, -1, |a|);
      assert parts == [a] + rest;
    }
  }

  /** A separator right after a piece in which none starts is the leftmost one. */
  lemma LeftmostAtSeparator(a: string, sep: string, t: string)
    requires |sep| > 0 && !Occurs(a + sep[..|sep| - 1], sep)
    ensures Find(a + sep + t, sep) == Some(|a|)
  {
    var s := a + sep + t;
    var w := a + sep[..|sep| - 1];
    assert s[|a|..|a| + |sep|] == sep;
    assert s[..|w|] == w;
    forall k | 0 <= k < |a|
      ensures !OccursAt(s, sep, k)
    {
      OccursInPrefixOf(s, |w|, sep, k);
    }
    assert OccursAt(s, sep, |a|);
    assert Occurs(s, sep);
    FirstOccurrenceUnique(s, sep, |a|, Find(s, sep).value);
  }

  /** The first occurrence is unique. */
  lemma FirstOccurrenceUnique(s: string, p: string, i: int, j: int)
    requires FirstOccurrenceFrom(s, p, 0, i) && FirstOccurrenceFrom(s, p, 0, j)
    ensures i == j
  {
  }

  /** A join of non-empty pieces starts with the first piece's first
      character and ends with the last piece's last character. */
  lemma JoinEnds(parts: seq<string>, sep: string)
    requires |parts| >= 1 && forall i :: 0 <= i < |parts| ==> parts[i] != []
    ensures var s := Join(parts, sep);
      s != [] && s[0] == parts[0][0] && s[|s| - 1] == parts[|parts| - 1][|parts[|parts| - 1]| - 1]
    decreases |parts|
  {
    if |parts| > 1 {
      JoinEnds(parts[1..], sep);
    }
  }

}
